=== FILE: README.md ===
# NspiPortV1 in Dafny

A model of `NspiPortV1`, the .NET wrapper of the NSPI driver. It exposes the SPI ports ("SPI1:", "SPI2:", ...) of an F&S board. The wrapper opens the device file and offers four operations: SEND, RECEIVE, TRANSFER and EXCHANGE. Each operation comes in several overloads, and each overload makes at most one `DeviceIoControl` call. Every rejection and every driver result passes through one error-translation step; a .NET runtime exception raised before the call is not translated. Depending on a per-port flag, that step returns an error code ("C style") or throws an `NspiPortV1Exception` whose `Reason` carries the code.

The driver is an oracle (`Device.Driver`). Each call is recorded as a `Device.Request`: the control code, the input buffer (or `null`), the input size, the output buffer and the output size, exactly as passed. The driver answers with the raw `int` result and the thread's last Win32 error.

Each overload is a pure function from its arguments to a `NspiPort.Plan`:

- reject with a reason, without touching the device;
- issue one request; or
- stop on a runtime exception of the .NET runtime, such as `new byte[-1]`.

`NspiPort.Perform` completes a plan against the oracle and the reporting mode.

C# `int` is modelled as the `int32` newtype. The two unchecked `int` sums are wrapped explicitly (`Machine.Add32`). These are `cmd.Length + sdata.Length` and `cmdlen + datalen`.

Files:

- `machine.dfy`: bytes, `int32`, arrays, zero-filled fresh arrays, unchecked addition.
- `ioctl.dfy`: `CTL_CODE` packing and the four control codes.
- `errors.dfy`: the reporting mode, `HandleError` in both forms, and the documented reading of the success flag.
- `device.dfy`: requests, replies, and the bytes a request puts on the bus.
- `cmd_data.dfy`: the two copy loops of the five-argument Transfer, as a method with loop invariants.
- `nspi_port.dfy`: all sixteen public overloads and `Perform`.
- `port_properties.dfy`: lemmas relating overloads to each other and to the oracle.

Overload names: `Send(data)` is `Send`, `Send(cmd, data)` is `SendCmd`, `Send(data, datalen)` is `SendN`, and `Send(cmd, cmdlen, data, datalen)` is `SendCmdN`. The same pattern holds for Transfer and Exchange. `Receive(out data, datalen)` is `ReceiveNew` and `Receive(cmd, out data, datalen)` is `ReceiveCmdNew`. `Receive(data, datalen)` is `ReceiveInto` and `Receive(cmd, cmdlen, data, datalen)` is `ReceiveCmdInto`.

"Bytes on the bus" (`Device.Outbound`) follows the overloads' doc comments. The command goes in the input buffer. For SEND and EXCHANGE the data follows it in the output buffer. For TRANSFER the input buffer holds everything that is sent. RECEIVE sends only the command.

## Model

| member | source | states |
|---|---|---|
| Machine.Add32 | NspiPortV1.cs:723 | The unchecked `int` sum agrees with the true sum modulo 2^32, and equals it when it fits |
| Machine.Add32NegativeIffOverflow | NspiPortV1.cs:645 | Adding two array lengths wraps negative exactly when the true sum exceeds `int.MaxValue` |
| Ioctl.Pack | NspiPortV1.cs:209-227 | The `CTL_CODE` layout: each field that fits its range lands in its own bits (device type 16-31, access 14-15, function 2-13, method 0-1) |
| Ioctl.Unpack | NspiPortV1.cs:209-227 | Every control code splits into valid fields (device type, access, function, method) that pack back to the same code |
| Ioctl.UnpackPack | NspiPortV1.cs:209-227 | Packing fields that fit their bit ranges and splitting again gives the fields back |
| Ioctl.FunctionNumber | NspiPortV1.cs:220-227 | The four operations use function numbers 0x800 to 0x803 |
| Ioctl.Code | NspiPortV1.cs:218-227 | Each of the four codes decodes to device type 0x800A, any access, METHOD_BUFFERED, and the operation's function number |
| Ioctl.OperationOf | NspiPortV1.cs:220-227 | A code that names an operation is that operation's code |
| Ioctl.CodesDistinct | NspiPortV1.cs:220-227 | The four codes are pairwise distinct, and each decodes back to its operation |
| Errors.HandleErrorsViaReturn | NspiPortV1.cs:322-325 | Setting the reporting method stores exactly the given flag |
| Errors.HandleErrorsViaReturnIdempotent | NspiPortV1.cs:322-325 | Setting the same mode twice equals setting it once, and the last setting wins |
| Errors.HandleErrorReason | NspiPortV1.cs:373-378 | C style returns the reason unchanged; otherwise an exception whose `Reason` is the reason and which names the operation |
| Errors.HandleError | NspiPortV1.cs:348-357 | Success exactly when the flag is 0, or in C style when the last error is 0; a non-zero flag is reported like an explicit reason equal to the last error |
| Errors.HandleErrorAsDocumented | NspiPortV1.cs:328-336 | The documented convention: success exactly when the flag is non-zero (or C style with last error 0) |
| Errors.HandleErrorInvertsDocumentation | NspiPortV1.cs:328-357 | The code is the documented translation applied to the negated flag |
| Errors.Win32SuccessReportedAsFailure | NspiPortV1.cs:348-357 | A Win32 success flag of 1 makes a default port throw, although the documented reading calls it success |
| Device.Window | NspiPortV1.cs:865-872 | The driver's view of a buffer and size: defined exactly when the size lies within the array (or is 0 for `null`), with that many leading bytes |
| Device.Outbound | NspiPortV1.cs:865-872 | A well-formed request's bus bytes begin with exactly the bytes of its input window; with a `null` command, SEND and EXCHANGE carry exactly the data window |
| Device.InboundLength | NspiPortV1.cs:865-872 | SEND asks for no bytes back; RECEIVE, TRANSFER and EXCHANGE ask for the output size |
| CmdData.Concatenation | NspiPortV1.cs:716-728 | The command-plus-data buffer is `cmd[..cmdlen] + sdata[..datalen]`; it fails with OverflowException when `cmdlen + datalen` wraps or is negative, and with IndexOutOfRangeException when `cmdlen` is negative but the sum is not |
| CmdData.BuildCmdData | NspiPortV1.cs:722-728 | The two copy loops compute exactly `Concatenation`, with a result of length `cmdlen + datalen` |
| NspiPort.Perform | NspiPortV1.cs:442-452 | At most one driver call, only for an issued plan; a rejection is reported through the reason path under the name of the plan's own operation; every thrown report names that operation; a runtime fault is reported as that same .NET exception and is no NspiPortV1 report |
| NspiPort.Name | NspiPortV1.cs:400-844 | The `errorfunction` strings "Send()", "Receive()", "Transfer()", "Exchange()": each ends in "()" |
| NspiPort.NamesDistinct | NspiPortV1.cs:400-844 | The four operation names differ, so a report identifies the failing operation |
| NspiPort.Send | NspiPortV1.cs:394-401 | SEND carries all of `data`, with a `null` command; nothing comes back |
| NspiPort.SendCmd | NspiPortV1.cs:418-425 | SEND carries `cmd` followed by `data` |
| NspiPort.SendN | NspiPortV1.cs:442-452 | Rejects with 87 exactly when `data` is shorter than `datalen`; otherwise sends the first `datalen` bytes; a negative length reaches the driver as a malformed request |
| NspiPort.SendCmdN | NspiPortV1.cs:473-483 | Rejects with 87 exactly when either array is short; otherwise sends `cmd[..cmdlen]` then `data[..datalen]` |
| NspiPort.ReceiveNew | NspiPortV1.cs:499-508 | A fresh zero array of exactly `datalen` bytes receives `datalen` bytes; a negative `datalen` throws OverflowException; never rejected |
| NspiPort.ReceiveCmdNew | NspiPortV1.cs:527-536 | Sends all of `cmd`, then `datalen` bytes arrive in a fresh array of that length; a negative `datalen` throws OverflowException |
| NspiPort.ReceiveInto | NspiPortV1.cs:553-563 | Rejects with 87 exactly when `data` is short; otherwise `datalen` bytes arrive in the caller's array |
| NspiPort.ReceiveCmdInto | NspiPortV1.cs:583-593 | Rejects with 87 exactly when either array is short; otherwise sends `cmd[..cmdlen]` and receives into the caller's array |
| NspiPort.Transfer | NspiPortV1.cs:611-620 | Sends all of `sdata` and receives as many bytes into a fresh array of length `sdata.Length` |
| NspiPort.TransferCmd | NspiPortV1.cs:640-654 | Sends exactly `cmd + sdata` and receives `sdata.Length` bytes into a fresh array of that length; fails with OverflowException exactly when the lengths sum past `int.MaxValue` |
| NspiPort.TransferN | NspiPortV1.cs:676-687 | Rejects with 87 exactly when `sdata` or `rdata` is shorter than `datalen`; otherwise sends `sdata[..datalen]` and receives into the caller's `rdata` |
| NspiPort.TransferCmdN | NspiPortV1.cs:713-735 | For a non-negative `datalen`, rejects with 87 exactly when `cmd` or `sdata` is short (a negative `datalen` throws OverflowException at the allocation before the guard); the caller's `rdata` plays no part; otherwise, for `0 <= cmdlen` and a sum `cmdlen + datalen` that fits, sends exactly `cmd[..cmdlen] + sdata[..datalen]` into a fresh `rdata` of `datalen` bytes; a negative `cmdlen` or an overflowing sum throws (OverflowException or IndexOutOfRangeException) and sends nothing |
| NspiPort.TransferCmdNRdata | NspiPortV1.cs:713-735 | The caller's `rdata` after the five-argument Transfer: the very array the issued request hands the driver; a fresh zero array of `datalen` bytes when the call is rejected or the copy faults; the caller's own array only when `new byte[datalen]` threw |
| NspiPort.Exchange | NspiPortV1.cs:752-759 | EXCHANGE carries all of `data` and overwrites it in place |
| NspiPort.ExchangeCmd | NspiPortV1.cs:777-784 | EXCHANGE carries `cmd` then `data`; only `data` is the receiving buffer |
| NspiPort.ExchangeN | NspiPortV1.cs:802-813 | Rejects with 87 exactly when `data` is short; otherwise exchanges the first `datalen` bytes in place |
| NspiPort.ExchangeCmdN | NspiPortV1.cs:835-845 | Rejects with 87 exactly when either array is short; otherwise sends `cmd[..cmdlen]` then `data[..datalen]`, and the answer replaces `data` |
| PortProperties.SendFixedMatchesExplicit | NspiPortV1.cs:394-483 | `Send(data)` and `Send(cmd, data)` issue the same request as the explicit-length overloads with the full lengths |
| PortProperties.ExchangeFixedMatchesExplicit | NspiPortV1.cs:752-845 | `Exchange(data)` and `Exchange(cmd, data)` issue the same request as the explicit-length overloads with the full lengths |
| PortProperties.ReceiveFreshMatchesExplicit | NspiPortV1.cs:499-593 | The `out` forms of Receive equal the caller-array forms given a fresh zero array of `datalen` bytes |
| PortProperties.TransferFixedMatchesExplicit | NspiPortV1.cs:611-735 | `Transfer(sdata, out rdata)` equals `Transfer(sdata, sdata.Length, fresh)`; `Transfer(cmd, sdata, out rdata)` equals the five-argument form with full lengths, overflow included |
| PortProperties.LengthGuardsIssueNothing | NspiPortV1.cs:442-845 | In every length-checked overload (for the five-argument Transfer, for a non-negative `datalen`), a short array issues no request and reports 87 under the operation's name |
| PortProperties.NegativeLengthReachesDriver | NspiPortV1.cs:442-452 | The guards do not reject a negative length, which is passed to the driver as the request size |
| PortProperties.TransferCmdNRdataGuardDead | NspiPortV1.cs:713-720 | A caller `rdata` shorter than `datalen` is rejected by the four-argument Transfer but never by the five-argument one |
| PortProperties.DriverResultDecidesReport | NspiPortV1.cs:348-357 | An issued call reports success when the raw result is 0; otherwise it reports the driver's last error |
| PortProperties.SendFailureScenario | NspiPortV1.cs:394-401 | With a failing driver, `Send([0xFF])` returns the last error in C style and throws it as `Reason` from "Send()" by default |
| PortProperties.ExchangeScenario | NspiPortV1.cs:752-759 | With a driver that returns 0, `Exchange([1,2,3])` hands the three bytes over in place and returns 0 |

## Discrepancies

- The success flag is inverted relative to the documentation. `HandleError(int success, …)` treats a non-zero result as failure (NspiPortV1.cs:350). Its doc comment (NspiPortV1.cs:331-332) and Win32 `DeviceIoControl` both call a non-zero result success. The model follows the code. `Errors.HandleErrorInvertsDocumentation` proves that the code is the documented translation applied to the negated flag. `Errors.Win32SuccessReportedAsFailure` shows a Win32 success of 1 turned into an exception. The native layer under this Linux port may itself return 0 on success, so the model does not decide which side is wrong.
- The `rdata` guard of the five-argument Transfer never fires. `Transfer(cmd, cmdlen, sdata, datalen, ref rdata)` replaces `rdata` with a fresh array of `datalen` bytes before it tests `rdata.Length < datalen`. That test can therefore never fire (`NspiPort.TransferCmdN`, `PortProperties.TransferCmdNRdataGuardDead`). Because `rdata` is a `ref` parameter, a rejected call still leaves the caller holding the fresh array (`NspiPort.TransferCmdNRdata`).
- Negative lengths are not rejected. The length guards only compare `Length < len`. A negative length passes them and reaches the driver as the request size (`PortProperties.NegativeLengthReachesDriver`). The `out` overloads throw OverflowException instead, from `new byte[len]`. In the five-argument Transfer a negative `cmdlen` also never reaches the driver: `new byte[cmdlen + datalen]` throws OverflowException when the sum is negative (NspiPortV1.cs:723), and otherwise the copy into index `i + cmdlen` throws IndexOutOfRangeException (NspiPortV1.cs:728) (`CmdData.Concatenation`).
- `Transfer(sdata, datalen, rdata)` receives into the caller's array, which may be longer than `datalen` (NspiPortV1.cs:676-687); only its first `datalen` bytes are handed to the driver as receiving space.

## Left out

- Opening the device (`CECreateFileW`, NspiPortV1.cs:284-293) and closing it in the finalizer (NspiPortV1.cs:303-307): foreign calls and GC timing. Handle validity and the `NspiAccess` rights are therefore not modelled.
- `CEDeviceIoControl` and `Marshal.GetLastWin32Error`: foreign calls into `coredll.dll`. They are the `Device.Driver` oracle and its `Reply.lastError`.
- What the driver writes into the output buffer and the SPI bus timing: driver internals. The `out`/`ref` arrays and the in-place EXCHANGE data are modelled as the buffers handed to the driver; their contents afterwards are not.
- Exception message text, inner-exception chaining and the other `NspiPortV1Exception` constructors (NspiPortV1.cs:85-190): text plumbing. A thrown report keeps only `Reason` and the name of the failing operation.
- `null` array arguments: the model's arrays are never `null`. In the source a `null` array whose `.Length` is read throws NullReferenceException, but not every `null` is read. The `ref rdata` of the five-argument Transfer is overwritten at line 716 before anything reads it, so `null` is accepted there. The guards short-circuit (lines 475, 585, 678, 717, 837): when an earlier operand of the guard already fails, the later array is never read, even if it is `null`, and the call reports 87.
- The `APIError` enumeration is kept only as named `int32` constants (`Errors.ErrorInvalidParameter` and the rest). The `NspiAccess` enumeration is left out with the constructor.
- Concurrent use of one port: the source does no locking and leaves it to the caller.
- Device.Outbound: the bytes on the bus come from the overloads' doc comments about how the driver reads the two buffers; the driver's own code is not part of this model.
- NspiPort.TransferCmd: an allocation above .NET's byte-array limit (0x7FFFFFC7 bytes) or beyond available memory throws OutOfMemoryException; the model lets every allocation of a non-negative size succeed, so only the `int` overflow of the length sum is a fault.
- NspiPort.TransferCmdN, NspiPort.ReceiveNew, NspiPort.ReceiveCmdNew, NspiPort.Transfer: the same allocation limit and out-of-memory failure of `new byte[n]` is not modelled.

=== FILE: cmd_data.dfy ===
/**
 The command-plus-data buffer that `Transfer(cmd, cmdlen, sdata, datalen, ref rdata)`
 builds before calling the driver: an array of `cmdlen + datalen` bytes filled
 by two copy loops, the first `cmdlen` bytes of `cmd` and then the first
 `datalen` bytes of `sdata`.
 */
module CmdData {
  import opened Machine
  import opened Errors

  /** Either the built bytes or the runtime exception that stopped the construction. */
  datatype Built = Done(bytes: seq<byte>) | Crash(kind: FaultKind)

  /**
   What building the buffer yields, stated without loops. The length guard of
   the overload has already passed and `datalen` is non-negative (the overload
   allocated `new byte[datalen]` first). An overflowing `cmdlen + datalen`
   makes the allocation fail; a negative `cmdlen` that still leaves a
   non-negative total makes the second loop store below index 0.
   */
  function Concatenation(cmd: seq<byte>, cmdlen: int32, sdata: seq<byte>, datalen: int32): (b: Built)
    requires cmdlen as int <= |cmd|
    requires 0 <= datalen as int <= |sdata|
    ensures b.Done? <==> 0 <= cmdlen && cmdlen as int + datalen as int <= Int32Max
    ensures b.Done? ==> b.bytes == cmd[..cmdlen] + sdata[..datalen]
    ensures b.Crash? ==> (b.kind == Overflow <==> Add32(cmdlen, datalen) < 0)
  {
    if Add32(cmdlen, datalen) < 0 then Crash(Overflow)
    else if cmdlen < 0 then Crash(IndexOutOfRange)
    else Done(cmd[..cmdlen] + sdata[..datalen])
  }

  /** The two copy loops, with the array bounds checks of the runtime made explicit. */
  method BuildCmdData(cmd: seq<byte>, cmdlen: int32, sdata: seq<byte>, datalen: int32) returns (b: Built)
    requires cmdlen as int <= |cmd|
    requires 0 <= datalen as int <= |sdata|
    ensures b == Concatenation(cmd, cmdlen, sdata, datalen)
    ensures b.Done? ==> |b.bytes| == cmdlen as int + datalen as int
  {
    var total := Add32(cmdlen, datalen);
    if total < 0 {
      return Crash(Overflow);
    }
    var cmddata := new byte[total as int];
    var i: int := 0;
    while i < cmdlen as int
      invariant 0 <= i
      invariant cmdlen >= 0 ==> i <= cmdlen as int
      invariant cmdlen < 0 ==> i == 0
      invariant total as int == cmdlen as int + datalen as int
      invariant forall k :: 0 <= k < i ==> cmddata[k] == cmd[k]
    {
      cmddata[i] := cmd[i];
      i := i + 1;
    }
    i := 0;
    while i < datalen as int
      invariant 0 <= i <= datalen as int
      invariant cmdlen < 0 ==> i == 0
      invariant total as int == cmdlen as int + datalen as int
      invariant forall k :: 0 <= k < cmdlen as int ==> cmddata[k] == cmd[k]
      invariant forall k :: 0 <= k < i ==> cmddata[k + cmdlen as int] == sdata[k]
    {
      if i + cmdlen as int < 0 {
        return Crash(IndexOutOfRange);
      }
      cmddata[i + cmdlen as int] := sdata[i];
      i := i + 1;
    }
    assert cmddata[..] == cmd[..cmdlen] + sdata[..datalen] by {
      forall k | 0 <= k < cmddata.Length
        ensures cmddata[k] == (cmd[..cmdlen] + sdata[..datalen])[k]
      {
        if k >= cmdlen as int {
          assert cmddata[(k - cmdlen as int) + cmdlen as int] == sdata[k - cmdlen as int];
        }
      }
    }
    return Done(cmddata[..]);
  }
}

=== FILE: device.dfy ===
/**
 The boundary to the native driver. Every `DeviceIoControl` call the wrapper
 makes is recorded as a `Request` holding exactly the arguments it passes:
 control code, input buffer (possibly `null`) and size, output buffer and size.
 The driver itself is an oracle that answers a request with the raw result of
 the call and the thread's last error afterwards.
 */
module Device {
  import opened Machine
  import opened Ioctl

  datatype Request = Request(
    code: bv32,
    inBuffer: Option<seq<byte>>,
    inSize: int32,
    outBuffer: seq<byte>,
    outSize: int32)

  /** The raw `int` the driver call returns and the last Win32 error read after it. */
  datatype Reply = Reply(result: int32, lastError: int32)

  type Driver = Request -> Reply

  /**
   The bytes of a buffer the driver is told to look at, or `None` when the
   size does not describe a part of the buffer (a negative size, a size beyond
   the array, or a non-zero size for a `null` buffer).
   */
  function Window(buffer: Option<seq<byte>>, size: int32): (w: Option<seq<byte>>)
    ensures w.Some? <==> (buffer.None? && size == 0) || (buffer.Some? && 0 <= size as int <= |buffer.value|)
    ensures w.Some? ==> |w.value| == size as int
    ensures w.Some? && buffer.Some? ==> w.value <= buffer.value
    ensures buffer.Some? && size as int == |buffer.value| ==> w == buffer
  {
    match buffer
    case None => if size == 0 then Some([]) else None
    case Some(b) =>
      assert b[..|b|] == b;
      if 0 <= size as int <= |b| then Some(b[..size]) else None
  }

  /**
   Whether the operation transmits the output buffer too. For SEND and
   EXCHANGE the data travels in the output buffer after the command in the
   input buffer; RECEIVE and TRANSFER transmit the input buffer only.
   */
  predicate TransmitsOutBuffer(op: Operation) {
    op == SendOp || op == ExchangeOp
  }

  /**
   The byte string a request puts on the bus, as the wrapper's documentation
   describes each operation: the input window, followed by the output window
   for SEND and EXCHANGE. `None` for a malformed request.
   */
  function Outbound(req: Request): (r: Option<seq<byte>>)
    ensures r.Some? ==> 0 <= req.inSize as int <= |r.value|
    ensures r.Some? ==> Window(req.inBuffer, req.inSize).Some?
                        && r.value[..req.inSize] == Window(req.inBuffer, req.inSize).value
    ensures req.inBuffer.None? && req.inSize == 0 && OperationOf(req.code).Some?
            && TransmitsOutBuffer(OperationOf(req.code).value)
            ==> r == Window(Some(req.outBuffer), req.outSize)
  {
    match OperationOf(req.code)
    case None => None
    case Some(op) =>
      match Window(req.inBuffer, req.inSize)
      case None => None
      case Some(cmd) =>
        if !TransmitsOutBuffer(op) then Some(cmd)
        else
          match Window(Some(req.outBuffer), req.outSize)
          case None => None
          case Some(data) =>
            assert [] + data == data;
            Some(cmd + data)
  }

  /**
   How many bytes the request asks the driver to deliver into the output
   buffer: none for SEND, whose output buffer carries outgoing data, and the
   output size for the other three operations.
   */
  function InboundLength(req: Request): (n: int)
    ensures OperationOf(req.code) == Some(SendOp) ==> n == 0
    ensures OperationOf(req.code).Some? && OperationOf(req.code) != Some(SendOp) ==> n == req.outSize as int
  {
    if req.code == Code(SendOp) then 0 else req.outSize as int
  }
}

=== FILE: errors.dfy ===
/**
 Error reporting of the wrapper: the per-port choice between returning an
 error code ("C style") and throwing an `NspiPortV1Exception` whose `Reason`
 carries the code, and the two translation steps every operation ends with.
 */
module Errors {
  import opened Machine

  /**
   Values of the `APIError` enumeration, listed in full as the wrapper
   declares them. The operations modelled here report only
   ERROR_INVALID_PARAMETER themselves; the others are last errors a driver
   may hand back.
   */
  const ErrorSuccess: int32 := 0
  const ErrorInvalidFunction: int32 := 1
  const ErrorFileNotFound: int32 := 2
  const ErrorAccessDenied: int32 := 5
  const ErrorInvalidHandle: int32 := 6
  const ErrorNotReady: int32 := 21
  const ErrorWriteFault: int32 := 27
  const ErrorGenFailure: int32 := 31
  const ErrorDevNotExist: int32 := 55
  const ErrorInvalidParameter: int32 := 87
  const ErrorInvalidName: int32 := 123
  const ErrorTimeout: int32 := 1460

  /** Runtime exceptions the .NET runtime raises inside the wrapper itself. */
  datatype FaultKind =
    | Overflow          // `new byte[n]` with a negative `n`
    | IndexOutOfRange   // an array store outside the array

  /**
   What a caller of a public operation observes: a returned code, an
   `NspiPortV1Exception` with its `Reason` and the name of the failing
   operation, or a runtime exception that is not an `NspiPortV1Exception`.
   */
  datatype Report =
    | Ret(code: int32)
    | Throw(reason: int32, origin: string)
    | Fault(kind: FaultKind)
  {
    predicate Succeeded() {
      this == Ret(ErrorSuccess)
    }
  }

  /** The per-port reporting mode; `cStyle` selects return codes over exceptions. */
  datatype ErrorMode = ErrorMode(cStyle: bool)

  /** A freshly constructed port throws exceptions. */
  const DefaultMode := ErrorMode(cStyle := false)

  /** Selects the reporting mode for all later operations. */
  function HandleErrorsViaReturn(mode: ErrorMode, cStyle: bool): (m: ErrorMode)
    ensures m.cStyle == cStyle
  {
    mode.(cStyle := cStyle)
  }

  /**
   Reports a reason the wrapper determined itself: returned as is in C style,
   thrown as the exception's `Reason` otherwise. The reason is reported even
   when it is 0.
   */
  function HandleErrorReason(mode: ErrorMode, origin: string, reason: int32): (r: Report)
    ensures r.Ret? <==> mode.cStyle
    ensures r.Throw? <==> !mode.cStyle
    ensures r.Ret? ==> r.code == reason
    ensures r.Throw? ==> r.reason == reason && r.origin == origin
  {
    if mode.cStyle then Ret(reason) else Throw(reason, origin)
  }

  /**
   Translates the raw result of a driver call. As written, a NON-zero result
   counts as failure, which is then reported with the thread's last error.
   */
  function HandleError(mode: ErrorMode, success: int32, lastError: int32, origin: string): (r: Report)
    ensures r.Succeeded() <==> success == 0 || (mode.cStyle && lastError == ErrorSuccess)
    ensures success == 0 ==> r.Succeeded()
    ensures success != 0 ==> r == HandleErrorReason(mode, origin, lastError)
    ensures !r.Fault?
  {
    if success != 0 then
      if mode.cStyle then Ret(lastError) else Throw(lastError, origin)
    else
      Ret(ErrorSuccess)
  }

  /**
   The translation the doc comment of `HandleError` describes and Win32
   `DeviceIoControl` follows: 0 means failure, anything else success.
   */
  function HandleErrorAsDocumented(mode: ErrorMode, success: int32, lastError: int32, origin: string): (r: Report)
    ensures r.Succeeded() <==> success != 0 || (mode.cStyle && lastError == ErrorSuccess)
    ensures success == 0 ==> r == HandleErrorReason(mode, origin, lastError)
  {
    if success == 0 then HandleErrorReason(mode, origin, lastError) else Ret(ErrorSuccess)
  }

  /** The flag as the driver reports it under the opposite convention. */
  function Negate(success: int32): (r: int32)
    ensures (r == 0) <==> (success != 0)
  {
    if success == 0 then 1 else 0
  }

  /** The code is exactly the documented translation applied to the negated flag. */
  lemma HandleErrorInvertsDocumentation(mode: ErrorMode, success: int32, lastError: int32, origin: string)
    ensures HandleError(mode, success, lastError, origin)
         == HandleErrorAsDocumented(mode, Negate(success), lastError, origin)
  {
  }

  /** A Win32-style success flag (1) makes a default port throw with the last error. */
  lemma Win32SuccessReportedAsFailure(lastError: int32, origin: string)
    ensures HandleError(DefaultMode, 1, lastError, origin) == Throw(lastError, origin)
    ensures HandleErrorAsDocumented(DefaultMode, 1, lastError, origin).Succeeded()
  {
  }

  /** Setting the mode only stores the flag: setting it twice equals setting it once, and the last setting wins. */
  lemma HandleErrorsViaReturnIdempotent(mode: ErrorMode, first: bool, second: bool)
    ensures HandleErrorsViaReturn(HandleErrorsViaReturn(mode, first), first) == HandleErrorsViaReturn(mode, first)
    ensures HandleErrorsViaReturn(HandleErrorsViaReturn(mode, first), second) == HandleErrorsViaReturn(mode, second)
  {
  }
}

=== FILE: ioctl.dfy ===
/**
 The four device-control codes of the NSPI driver, built with the Windows
 `CTL_CODE` layout: device type in bits 16-31, required access in bits 14-15,
 function number in bits 2-13 and transfer method in bits 0-1.
 */
module Ioctl {
  import opened Machine

  // The transfer methods and access rights of `CTL_CODE`, all listed as the
  // wrapper declares them; the NSPI codes use only METHOD_BUFFERED and FILE_ANY_ACCESS.
  const MethodBuffered: bv32 := 0
  const MethodInDirect: bv32 := 1
  const MethodOutDirect: bv32 := 2
  const MethodNeither: bv32 := 3

  const FileAnyAccess: bv32 := 0 << 14
  const FileReadAccess: bv32 := 1 << 14
  const FileWriteAccess: bv32 := 2 << 14

  const DeviceNspi: bv32 := 0x800A << 16

  const IoctlNspiSend: bv32 := DeviceNspi | FileAnyAccess | (0x800 << 2) | MethodBuffered
  const IoctlNspiReceive: bv32 := DeviceNspi | FileAnyAccess | (0x801 << 2) | MethodBuffered
  const IoctlNspiTransfer: bv32 := DeviceNspi | FileAnyAccess | (0x802 << 2) | MethodBuffered
  const IoctlNspiExchange: bv32 := DeviceNspi | FileAnyAccess | (0x803 << 2) | MethodBuffered

  /** The four operations the driver offers. */
  datatype Operation = SendOp | ReceiveOp | TransferOp | ExchangeOp

  /** The decoded fields of a control code. */
  datatype Fields = Fields(deviceType: bv32, access: bv32, functionNumber: bv32, transferMethod: bv32) {
    predicate Valid() {
      deviceType < 0x1_0000 && access < 4 && functionNumber < 0x1000 && transferMethod < 4
    }
  }

  /** `CTL_CODE(deviceType, function, method, access)`: each field that fits its range lands in its own bits. */
  function Pack(f: Fields): (code: bv32)
    ensures f.Valid() ==> code >> 16 == f.deviceType && (code >> 14) & 3 == f.access
                          && (code >> 2) & 0xFFF == f.functionNumber && code & 3 == f.transferMethod
  {
    (f.deviceType << 16) | (f.access << 14) | (f.functionNumber << 2) | f.transferMethod
  }

  /** Splits a control code into its four fields; every code is the packing of its fields. */
  function Unpack(code: bv32): (f: Fields)
    ensures f.Valid()
    ensures Pack(f) == code
  {
    Fields(code >> 16, (code >> 14) & 3, (code >> 2) & 0xFFF, code & 3)
  }

  /** Packing loses nothing as long as every field fits its bit range. */
  lemma UnpackPack(f: Fields)
    requires f.Valid()
    ensures Unpack(Pack(f)) == f
  {
  }

  /** The function number the wrapper assigns to each operation, counted from 0x800. */
  function FunctionNumber(op: Operation): (n: bv32)
    ensures 0x800 <= n <= 0x803
  {
    match op
    case SendOp => 0x800
    case ReceiveOp => 0x801
    case TransferOp => 0x802
    case ExchangeOp => 0x803
  }

  /**
   The control code the wrapper hands to the driver for each operation: device
   type 0x800A, any access, buffered method, function 0x800 to 0x803.
   */
  function Code(op: Operation): (c: bv32)
    ensures Unpack(c) == Fields(0x800A, 0, FunctionNumber(op), 0)
    ensures Unpack(c).deviceType == Unpack(DeviceNspi).deviceType
    ensures Unpack(c).transferMethod == MethodBuffered && Unpack(c).access == FileAnyAccess >> 14
  {
    match op
    case SendOp => IoctlNspiSend
    case ReceiveOp => IoctlNspiReceive
    case TransferOp => IoctlNspiTransfer
    case ExchangeOp => IoctlNspiExchange
  }

  /** The operation a control code stands for, if it is one of the four. */
  function OperationOf(code: bv32): (r: Option<Operation>)
    ensures r.Some? ==> Code(r.value) == code
  {
    if code == IoctlNspiSend then Some(SendOp)
    else if code == IoctlNspiReceive then Some(ReceiveOp)
    else if code == IoctlNspiTransfer then Some(TransferOp)
    else if code == IoctlNspiExchange then Some(ExchangeOp)
    else None
  }

  /** The four codes are pairwise distinct, so the driver can tell the operations apart. */
  lemma CodesDistinct(a: Operation, b: Operation)
    ensures Code(a) == Code(b) <==> a == b
    ensures OperationOf(Code(a)) == Some(a)
  {
    assert Unpack(Code(a)).functionNumber == FunctionNumber(a);
    assert Unpack(Code(b)).functionNumber == FunctionNumber(b);
  }
}

=== FILE: machine.dfy ===
/**
 Machine-level value types of the .NET wrapper: bytes, 32-bit signed integers
 (the C# `int` used for every length and error code), byte arrays whose
 `Length` is an `int`, and the optional buffer used where the wrapper passes
 `null` to the driver.
 */
module Machine {

  newtype byte = x: int | 0 <= x < 0x100

  const Int32Min: int := -0x8000_0000
  const Int32Max: int := 0x7FFF_FFFF

  newtype int32 = x: int | -0x8000_0000 <= x < 0x8000_0000

  /** A C# `byte[]`: its `Length` is an `int`, so it never exceeds `int.MaxValue`. */
  type ByteArray = s: seq<byte> | |s| <= 0x7FFF_FFFF

  datatype Option<+T> = None | Some(value: T)

  /** The fresh, zero-filled array `new byte[n]`. */
  function Zeros(n: nat): (z: seq<byte>)
    ensures |z| == n
    ensures forall k :: 0 <= k < n ==> z[k] == 0
  {
    seq(n, _ => 0 as byte)
  }

  /** Unchecked C# `int` addition: the mathematical sum reduced into the 32-bit range. */
  function Add32(a: int32, b: int32): (r: int32)
    ensures (r as int - (a as int + b as int)) % 0x1_0000_0000 == 0
    ensures Int32Min <= a as int + b as int <= Int32Max ==> r as int == a as int + b as int
  {
    var m := (a as int + b as int) % 0x1_0000_0000;
    if m <= Int32Max then m as int32 else (m - 0x1_0000_0000) as int32
  }

  /** Adding two non-negative `int`s wraps to a negative value exactly when the sum overflows. */
  lemma Add32NegativeIffOverflow(a: int32, b: int32)
    requires 0 <= a && 0 <= b
    ensures Add32(a, b) < 0 <==> a as int + b as int > Int32Max
  {
  }
}

=== FILE: nspi_port.dfy ===
/**
 The public operations of `NspiPortV1`. Each overload is split into what it
 decides before touching the device (a `Plan`: reject with a reason, issue one
 driver request, or stop on a runtime exception) and the common completion
 `Perform`, which calls the driver oracle at most once and translates the
 outcome according to the port's reporting mode.

 Arrays that the driver fills (`out`/`ref` arrays and the in-place data of
 EXCHANGE) are the output buffers of the issued request; what the driver
 writes into them is not modelled.
 */
module NspiPort {
  import opened Machine
  import opened Ioctl
  import opened Errors
  import opened Device
  import opened CmdData

  datatype Plan =
    | Reject(op: Operation, reason: int32)    // a length guard of `op` failed; no device call
    | Issue(op: Operation, request: Request)  // exactly one `DeviceIoControl` call for `op`
    | Abort(kind: FaultKind)   // a runtime exception before any device call

  /** The observable outcome of one public call: the request issued, if any, and the report. */
  datatype Effect = Effect(issued: Option<Request>, report: Report)

  /** The operation name every failure report carries; the four names differ. */
  function Name(op: Operation): (n: string)
    ensures |n| > 2 && n[|n| - 2..] == "()"
  {
    match op
    case SendOp => "Send()"
    case ReceiveOp => "Receive()"
    case TransferOp => "Transfer()"
    case ExchangeOp => "Exchange()"
  }

  /** A report's operation name identifies the operation that failed. */
  lemma NamesDistinct(a: Operation, b: Operation)
    ensures Name(a) == Name(b) <==> a == b
  {
  }

  /** Completes a plan: at most one driver call, then error translation. */
  function Perform(mode: ErrorMode, plan: Plan, driver: Driver): (e: Effect)
    ensures e.issued.Some? <==> plan.Issue?
    ensures plan.Issue? ==> e.issued == Some(plan.request)
    ensures e.report.Fault? <==> plan.Abort?
    ensures plan.Abort? ==> e.report == Fault(plan.kind)
    ensures plan.Reject? ==> e.report == HandleErrorReason(mode, Name(plan.op), plan.reason)
    ensures e.report.Throw? ==> e.report.origin == Name(plan.op)
  {
    match plan
    case Reject(op, reason) => Effect(None, HandleErrorReason(mode, Name(op), reason))
    case Abort(kind) => Effect(None, Fault(kind))
    case Issue(op, req) =>
      var reply := driver(req);
      Effect(Some(req), HandleError(mode, reply.result, reply.lastError, Name(op)))
  }

  /** A plan that rejects or issues belongs to `op`, and an issued request carries `op`'s control code. */
  predicate BelongsTo(p: Plan, op: Operation) {
    (p.Reject? || p.Issue?) ==> p.op == op && (p.Issue? ==> p.request.code == Code(op))
  }

  /** The plan issues a well-formed request for `op` that puts `sent` on the bus and asks for `inbound` bytes back. */
  predicate Carries(p: Plan, op: Operation, sent: seq<byte>, inbound: int) {
    p.Issue? && p.request.code == Code(op)
    && Outbound(p.request) == Some(sent) && InboundLength(p.request) == inbound
  }

  /** The length of a C# array as the `int` its `Length` property returns. */
  function Length(a: ByteArray): (n: int32)
    ensures n as int == |a|
  {
    |a| as int32
  }

  // ---------------------------------------------------------------- Send

  /** `Send(data)`: all bytes of `data`, passed in the output buffer. */
  function Send(data: ByteArray): (p: Plan)
    ensures BelongsTo(p, SendOp)
    ensures Carries(p, SendOp, data, 0)
    ensures p.request.inBuffer.None?
  {
    Issue(SendOp, Request(IoctlNspiSend, None, 0, data, Length(data)))
  }

  /** `Send(cmd, data)`: all of `cmd` in the input buffer, then all of `data`. */
  function SendCmd(cmd: ByteArray, data: ByteArray): (p: Plan)
    ensures BelongsTo(p, SendOp)
    ensures Carries(p, SendOp, cmd + data, 0)
  {
    Issue(SendOp, Request(IoctlNspiSend, Some(cmd), Length(cmd), data, Length(data)))
  }

  /** `Send(data, datalen)`: the first `datalen` bytes, after the length guard. */
  function SendN(data: ByteArray, datalen: int32): (p: Plan)
    ensures BelongsTo(p, SendOp)
    ensures p.Reject? <==> |data| < datalen as int
    ensures p.Reject? ==> p.reason == ErrorInvalidParameter
    ensures !p.Abort?
    ensures 0 <= datalen as int <= |data| ==> Carries(p, SendOp, data[..datalen], 0)
    ensures datalen < 0 ==> p.Issue? && Outbound(p.request).None?
  {
    if |data| < datalen as int then Reject(SendOp, ErrorInvalidParameter)
    else Issue(SendOp, Request(IoctlNspiSend, None, 0, data, datalen))
  }

  /** `Send(cmd, cmdlen, data, datalen)`: the first `cmdlen` command bytes, then the first `datalen` data bytes. */
  function SendCmdN(cmd: ByteArray, cmdlen: int32, data: ByteArray, datalen: int32): (p: Plan)
    ensures BelongsTo(p, SendOp)
    ensures p.Reject? <==> |cmd| < cmdlen as int || |data| < datalen as int
    ensures p.Reject? ==> p.reason == ErrorInvalidParameter
    ensures !p.Abort?
    ensures 0 <= cmdlen as int <= |cmd| && 0 <= datalen as int <= |data|
            ==> Carries(p, SendOp, cmd[..cmdlen] + data[..datalen], 0)
  {
    if |cmd| < cmdlen as int || |data| < datalen as int then Reject(SendOp, ErrorInvalidParameter)
    else Issue(SendOp, Request(IoctlNspiSend, Some(cmd), cmdlen, data, datalen))
  }

  // ---------------------------------------------------------------- Receive

  /** `Receive(out data, datalen)`: a fresh array of `datalen` bytes is handed to the driver. */
  function ReceiveNew(datalen: int32): (p: Plan)
    ensures BelongsTo(p, ReceiveOp)
    ensures p.Abort? <==> datalen < 0
    ensures p.Abort? ==> p.kind == Overflow
    ensures !p.Reject?
    ensures p.Issue? ==> Carries(p, ReceiveOp, [], datalen as int)
    ensures p.Issue? ==> p.request.outBuffer == Zeros(datalen as int)
  {
    if datalen < 0 then Abort(Overflow)
    else Issue(ReceiveOp, Request(IoctlNspiReceive, None, 0, Zeros(datalen as int), datalen))
  }

  /** `Receive(cmd, out data, datalen)`: all of `cmd` is sent, then `datalen` bytes arrive in a fresh array. */
  function ReceiveCmdNew(cmd: ByteArray, datalen: int32): (p: Plan)
    ensures BelongsTo(p, ReceiveOp)
    ensures p.Abort? <==> datalen < 0
    ensures p.Abort? ==> p.kind == Overflow
    ensures !p.Reject?
    ensures p.Issue? ==> Carries(p, ReceiveOp, cmd, datalen as int)
    ensures p.Issue? ==> p.request.outBuffer == Zeros(datalen as int)
  {
    if datalen < 0 then Abort(Overflow)
    else Issue(ReceiveOp, Request(IoctlNspiReceive, Some(cmd), Length(cmd), Zeros(datalen as int), datalen))
  }

  /** `Receive(data, datalen)`: `datalen` bytes arrive in the caller's array. */
  function ReceiveInto(data: ByteArray, datalen: int32): (p: Plan)
    ensures BelongsTo(p, ReceiveOp)
    ensures p.Reject? <==> |data| < datalen as int
    ensures p.Reject? ==> p.reason == ErrorInvalidParameter
    ensures !p.Abort?
    ensures p.Issue? ==> p.request.outBuffer == data
    ensures 0 <= datalen as int <= |data| ==> Carries(p, ReceiveOp, [], datalen as int)
  {
    if |data| < datalen as int then Reject(ReceiveOp, ErrorInvalidParameter)
    else Issue(ReceiveOp, Request(IoctlNspiReceive, None, 0, data, datalen))
  }

  /** `Receive(cmd, cmdlen, data, datalen)`: the first `cmdlen` command bytes, then `datalen` bytes into the caller's array. */
  function ReceiveCmdInto(cmd: ByteArray, cmdlen: int32, data: ByteArray, datalen: int32): (p: Plan)
    ensures BelongsTo(p, ReceiveOp)
    ensures p.Reject? <==> |cmd| < cmdlen as int || |data| < datalen as int
    ensures p.Reject? ==> p.reason == ErrorInvalidParameter
    ensures !p.Abort?
    ensures p.Issue? ==> p.request.outBuffer == data
    ensures 0 <= cmdlen as int <= |cmd| && 0 <= datalen as int <= |data|
            ==> Carries(p, ReceiveOp, cmd[..cmdlen], datalen as int)
  {
    if |cmd| < cmdlen as int || |data| < datalen as int then Reject(ReceiveOp, ErrorInvalidParameter)
    else Issue(ReceiveOp, Request(IoctlNspiReceive, Some(cmd), cmdlen, data, datalen))
  }

  // ---------------------------------------------------------------- Transfer

  /** `Transfer(sdata, out rdata)`: all of `sdata` out, as many bytes back into a fresh array. */
  function Transfer(sdata: ByteArray): (p: Plan)
    ensures BelongsTo(p, TransferOp)
    ensures Carries(p, TransferOp, sdata, |sdata|)
    ensures p.request.outBuffer == Zeros(|sdata|)
  {
    var rdata := Zeros(|sdata|);
    Issue(TransferOp, Request(IoctlNspiTransfer, Some(sdata), Length(sdata), rdata, Length(rdata)))
  }

  /**
   `Transfer(cmd, sdata, out rdata)`: `cmd` and `sdata` are copied into one new
   array, whose length `cmd.Length + sdata.Length` is an unchecked `int` sum.
   */
  function TransferCmd(cmd: ByteArray, sdata: ByteArray): (p: Plan)
    ensures BelongsTo(p, TransferOp)
    ensures p.Abort? <==> |cmd| + |sdata| > Int32Max
    ensures p.Abort? ==> p.kind == Overflow
    ensures !p.Reject?
    ensures p.Issue? ==> Carries(p, TransferOp, cmd + sdata, |sdata|)
    ensures p.Issue? ==> p.request.outBuffer == Zeros(|sdata|)
  {
    var rdata := Zeros(|sdata|);
    var total := Add32(Length(cmd), Length(sdata));
    if total < 0 then Abort(Overflow)
    else
      var cmddata := cmd + sdata;
      Issue(TransferOp, Request(IoctlNspiTransfer, Some(cmddata), total, rdata, Length(rdata)))
  }

  /** `Transfer(sdata, datalen, rdata)`: the first `datalen` bytes out, `datalen` bytes back into the caller's `rdata`. */
  function TransferN(sdata: ByteArray, datalen: int32, rdata: ByteArray): (p: Plan)
    ensures BelongsTo(p, TransferOp)
    ensures p.Reject? <==> |sdata| < datalen as int || |rdata| < datalen as int
    ensures p.Reject? ==> p.reason == ErrorInvalidParameter
    ensures !p.Abort?
    ensures p.Issue? ==> p.request.outBuffer == rdata
    ensures 0 <= datalen && !p.Reject? ==> Carries(p, TransferOp, sdata[..datalen], datalen as int)
  {
    if |sdata| < datalen as int || |rdata| < datalen as int then Reject(TransferOp, ErrorInvalidParameter)
    else Issue(TransferOp, Request(IoctlNspiTransfer, Some(sdata), datalen, rdata, datalen))
  }

  /**
   `Transfer(cmd, cmdlen, sdata, datalen, ref rdata)`. `rdata` is replaced by a
   fresh array of `datalen` bytes before the length guard, so the guard's test
   of `rdata.Length` always passes: the caller's array is never consulted.
   */
  function TransferCmdN(cmd: ByteArray, cmdlen: int32, sdata: ByteArray, datalen: int32): (p: Plan)
    ensures BelongsTo(p, TransferOp)
    ensures p.Reject? <==> 0 <= datalen && (|cmd| < cmdlen as int || |sdata| < datalen as int)
    ensures p.Reject? ==> p.reason == ErrorInvalidParameter
    ensures p.Abort? <==> datalen < 0
                          || (!p.Reject? && (cmdlen < 0 || cmdlen as int + datalen as int > Int32Max))
    ensures p.Issue? ==> Carries(p, TransferOp, cmd[..cmdlen] + sdata[..datalen], datalen as int)
    ensures p.Issue? ==> p.request.outBuffer == Zeros(datalen as int)
  {
    if datalen < 0 then Abort(Overflow)
    else
      var rdata := Zeros(datalen as int);
      if |cmd| < cmdlen as int || |sdata| < datalen as int || |rdata| < datalen as int then
        Reject(TransferOp, ErrorInvalidParameter)
      else
        match Concatenation(cmd, cmdlen, sdata, datalen)
        case Crash(kind) => Abort(kind)
        case Done(cmddata) =>
          Issue(TransferOp, Request(IoctlNspiTransfer, Some(cmddata), Add32(cmdlen, datalen), rdata, datalen))
  }

  /**
   The value of the `ref rdata` argument after `Transfer(cmd, cmdlen, sdata, datalen, ref rdata)`
   returns or throws: the fresh array once the allocation succeeded, also on
   the rejected path; the caller's own array only if the allocation failed.
   */
  function TransferCmdNRdata(cmd: ByteArray, cmdlen: int32, sdata: ByteArray, datalen: int32, rdata: ByteArray)
    : (r: seq<byte>)
    ensures TransferCmdN(cmd, cmdlen, sdata, datalen).Issue?
            ==> r == TransferCmdN(cmd, cmdlen, sdata, datalen).request.outBuffer
    ensures TransferCmdN(cmd, cmdlen, sdata, datalen).Reject? ==> r == Zeros(datalen as int)
    ensures TransferCmdN(cmd, cmdlen, sdata, datalen).Abort? && datalen < 0 ==> r == rdata
    ensures TransferCmdN(cmd, cmdlen, sdata, datalen).Abort? && datalen >= 0 ==> r == Zeros(datalen as int)
  {
    if datalen < 0 then rdata else Zeros(datalen as int)
  }

  // ---------------------------------------------------------------- Exchange

  /** `Exchange(data)`: all of `data` out, the answer replaces `data` in place. */
  function Exchange(data: ByteArray): (p: Plan)
    ensures BelongsTo(p, ExchangeOp)
    ensures Carries(p, ExchangeOp, data, |data|)
    ensures p.request.outBuffer == data
  {
    Issue(ExchangeOp, Request(IoctlNspiExchange, None, 0, data, Length(data)))
  }

  /** `Exchange(cmd, data)`: `cmd` then `data` out; only `data` is overwritten. */
  function ExchangeCmd(cmd: ByteArray, data: ByteArray): (p: Plan)
    ensures BelongsTo(p, ExchangeOp)
    ensures Carries(p, ExchangeOp, cmd + data, |data|)
    ensures p.request.outBuffer == data
  {
    Issue(ExchangeOp, Request(IoctlNspiExchange, Some(cmd), Length(cmd), data, Length(data)))
  }

  /** `Exchange(data, datalen)`: the first `datalen` bytes are exchanged in place. */
  function ExchangeN(data: ByteArray, datalen: int32): (p: Plan)
    ensures BelongsTo(p, ExchangeOp)
    ensures p.Reject? <==> |data| < datalen as int
    ensures p.Reject? ==> p.reason == ErrorInvalidParameter
    ensures !p.Abort?
    ensures p.Issue? ==> p.request.outBuffer == data
    ensures 0 <= datalen as int <= |data| ==> Carries(p, ExchangeOp, data[..datalen], datalen as int)
  {
    if |data| < datalen as int then Reject(ExchangeOp, ErrorInvalidParameter)
    else Issue(ExchangeOp, Request(IoctlNspiExchange, None, 0, data, datalen))
  }

  /** `Exchange(cmd, cmdlen, data, datalen)`: the first `cmdlen` command bytes, then `datalen` data bytes exchanged in place. */
  function ExchangeCmdN(cmd: ByteArray, cmdlen: int32, data: ByteArray, datalen: int32): (p: Plan)
    ensures BelongsTo(p, ExchangeOp)
    ensures p.Reject? <==> |cmd| < cmdlen as int || |data| < datalen as int
    ensures p.Reject? ==> p.reason == ErrorInvalidParameter
    ensures !p.Abort?
    ensures p.Issue? ==> p.request.outBuffer == data
    ensures 0 <= cmdlen as int <= |cmd| && 0 <= datalen as int <= |data|
            ==> Carries(p, ExchangeOp, cmd[..cmdlen] + data[..datalen], datalen as int)
  {
    if |cmd| < cmdlen as int || |data| < datalen as int then Reject(ExchangeOp, ErrorInvalidParameter)
    else Issue(ExchangeOp, Request(IoctlNspiExchange, Some(cmd), cmdlen, data, datalen))
  }
}

=== FILE: port_properties.dfy ===
/**
 Properties that relate several overloads of `NspiPortV1`, or an overload and
 the driver oracle: fixed-length overloads against their explicit-length
 counterparts, the length guards, the ignored `ref rdata` of the five-argument
 Transfer, and the two end-to-end error-reporting scenarios.
 */
module PortProperties {
  import opened Machine
  import opened Ioctl
  import opened Errors
  import opened Device
  import opened NspiPort

  /** `Send(data)` and `Send(cmd, data)` issue what the explicit-length overloads issue for the whole arrays. */
  lemma SendFixedMatchesExplicit(cmd: ByteArray, data: ByteArray)
    ensures Send(data) == SendN(data, Length(data))
    ensures SendCmd(cmd, data) == SendCmdN(cmd, Length(cmd), data, Length(data))
  {
  }

  /** `Exchange(data)` and `Exchange(cmd, data)` issue what the explicit-length overloads issue for the whole arrays. */
  lemma ExchangeFixedMatchesExplicit(cmd: ByteArray, data: ByteArray)
    ensures Exchange(data) == ExchangeN(data, Length(data))
    ensures ExchangeCmd(cmd, data) == ExchangeCmdN(cmd, Length(cmd), data, Length(data))
  {
  }

  /**
   The `out` forms of Receive behave like the caller-array forms handed a
   fresh zero-filled array of `datalen` bytes and, for the command, all of `cmd`.
   */
  lemma ReceiveFreshMatchesExplicit(cmd: ByteArray, datalen: int32)
    requires 0 <= datalen
    ensures ReceiveNew(datalen) == ReceiveInto(Zeros(datalen as int), datalen)
    ensures ReceiveCmdNew(cmd, datalen) == ReceiveCmdInto(cmd, Length(cmd), Zeros(datalen as int), datalen)
  {
  }

  /**
   `Transfer(sdata, out rdata)` is `Transfer(sdata, sdata.Length, rdata)` on a
   fresh array, and `Transfer(cmd, sdata, out rdata)` is the five-argument
   Transfer with both whole lengths, including the overflow of their sum.
   */
  lemma {:induction false} TransferFixedMatchesExplicit(cmd: ByteArray, sdata: ByteArray)
    ensures Transfer(sdata) == TransferN(sdata, Length(sdata), Zeros(|sdata|))
    ensures TransferCmd(cmd, sdata) == TransferCmdN(cmd, Length(cmd), sdata, Length(sdata))
  {
    assert cmd[..|cmd|] == cmd;
    assert sdata[..|sdata|] == sdata;
  }

  /**
   Every length-checked overload, given an array shorter than its declared
   length, issues no driver request and reports ERROR_INVALID_PARAMETER (87)
   under the operation's name: returned in C style, thrown otherwise.
   */
  lemma LengthGuardsIssueNothing(mode: ErrorMode, driver: Driver,
                                 cmd: ByteArray, cmdlen: int32, data: ByteArray, datalen: int32, rdata: ByteArray)
    ensures |data| < datalen as int ==>
      Perform(mode, SendN(data, datalen), driver)
        == Effect(None, HandleErrorReason(mode, "Send()", ErrorInvalidParameter))
    ensures |cmd| < cmdlen as int || |data| < datalen as int ==>
      Perform(mode, SendCmdN(cmd, cmdlen, data, datalen), driver)
        == Effect(None, HandleErrorReason(mode, "Send()", ErrorInvalidParameter))
    ensures |data| < datalen as int ==>
      Perform(mode, ReceiveInto(data, datalen), driver)
        == Effect(None, HandleErrorReason(mode, "Receive()", ErrorInvalidParameter))
    ensures |cmd| < cmdlen as int || |data| < datalen as int ==>
      Perform(mode, ReceiveCmdInto(cmd, cmdlen, data, datalen), driver)
        == Effect(None, HandleErrorReason(mode, "Receive()", ErrorInvalidParameter))
    ensures |data| < datalen as int || |rdata| < datalen as int ==>
      Perform(mode, TransferN(data, datalen, rdata), driver)
        == Effect(None, HandleErrorReason(mode, "Transfer()", ErrorInvalidParameter))
    ensures 0 <= datalen && (|cmd| < cmdlen as int || |data| < datalen as int) ==>
      Perform(mode, TransferCmdN(cmd, cmdlen, data, datalen), driver)
        == Effect(None, HandleErrorReason(mode, "Transfer()", ErrorInvalidParameter))
    ensures |data| < datalen as int ==>
      Perform(mode, ExchangeN(data, datalen), driver)
        == Effect(None, HandleErrorReason(mode, "Exchange()", ErrorInvalidParameter))
    ensures |cmd| < cmdlen as int || |data| < datalen as int ==>
      Perform(mode, ExchangeCmdN(cmd, cmdlen, data, datalen), driver)
        == Effect(None, HandleErrorReason(mode, "Exchange()", ErrorInvalidParameter))
  {
  }

  /**
   The guards test only `length < declared`: a negative declared length passes
   them and reaches the driver as the size of the request.
   */
  lemma NegativeLengthReachesDriver(data: ByteArray, datalen: int32, rdata: ByteArray)
    requires datalen < 0
    ensures SendN(data, datalen).Issue? && SendN(data, datalen).request.outSize == datalen
    ensures ReceiveInto(data, datalen).Issue? && ReceiveInto(data, datalen).request.outSize == datalen
    ensures TransferN(data, datalen, rdata).Issue? && TransferN(data, datalen, rdata).request.inSize == datalen
    ensures ExchangeN(data, datalen).Issue? && ExchangeN(data, datalen).request.outSize == datalen
  {
  }

  /**
   In `Transfer(cmd, cmdlen, sdata, datalen, ref rdata)` the test of
   `rdata.Length` never fires: a caller array too short for `datalen` is
   rejected by `Transfer(sdata, datalen, rdata)` but not here, and the caller
   gets back a fresh array of `datalen` bytes, also when the call is rejected.
   */
  lemma TransferCmdNRdataGuardDead(cmd: ByteArray, cmdlen: int32, sdata: ByteArray, datalen: int32, rdata: ByteArray)
    requires 0 <= datalen
    requires |rdata| < datalen as int
    ensures TransferN(sdata, datalen, rdata).Reject?
    ensures TransferCmdN(cmd, cmdlen, sdata, datalen).Reject? <==> |cmd| < cmdlen as int || |sdata| < datalen as int
    ensures TransferCmdNRdata(cmd, cmdlen, sdata, datalen, rdata) == Zeros(datalen as int)
  {
  }

  /**
   A driver call whose raw result is 0 is reported as success in either mode;
   any other result is reported with the driver's last error.
   */
  lemma DriverResultDecidesReport(mode: ErrorMode, plan: Plan, driver: Driver)
    requires plan.Issue?
    ensures driver(plan.request).result == 0 ==> Perform(mode, plan, driver).report == Ret(0)
    ensures driver(plan.request).result != 0 ==>
      Perform(mode, plan, driver).report == HandleErrorReason(mode, Name(plan.op), driver(plan.request).lastError)
  {
  }

  /**
   A failing driver: `Send([0xFF])` returns the injected last error in C style,
   and a default port throws with that `Reason` under the name "Send()".
   */
  lemma SendFailureScenario(driver: Driver, lastError: int32)
    requires forall req :: driver(req).result != 0 && driver(req).lastError == lastError
    ensures Perform(HandleErrorsViaReturn(DefaultMode, true), Send([0xFF]), driver).report == Ret(lastError)
    ensures Perform(DefaultMode, Send([0xFF]), driver).report == Throw(lastError, "Send()")
  {
  }

  /**
   A driver that answers every request with result 0: `Exchange([1, 2, 3])`
   hands the three bytes to the driver in place, asks for three back, and returns 0.
   */
  lemma ExchangeScenario(mode: ErrorMode, driver: Driver)
    requires forall req :: driver(req).result == 0
    ensures Perform(mode, Exchange([1, 2, 3]), driver).issued
         == Some(Request(IoctlNspiExchange, None, 0, [1, 2, 3], 3))
    ensures Perform(mode, Exchange([1, 2, 3]), driver).report == Ret(0)
  {
  }
}
